=== FILE: README.md ===
# Slack joke command webhook — Dafny model

This project models the decision logic of the Slack-command Lambda that tells
jokes with a hosted language model and keeps a history of them in one S3
object:

- **History store** (`History`): the object is a text of serialized joke
  records, one per line, newest first. New records are prepended
  (`record + "\n" + old`). The generator's context read splits the text on
  newlines, drops empty lines and keeps the last 30. The evaluator's read
  takes the first line and strips it.
- **Generator** (`Generator.GenerateJoke`, `get_a_joke`): reads recent jokes as
  context, asks the model for a JSON joke, decodes it, reads its `joke`
  field, prepends the raw reply text to the history and returns the joke. Any
  failure returns the empty string.
- **Evaluator** (`Evaluator.EvaluateGuess`, `respond_to_joke`): grades the
  user's guess against the newest record and returns the model's text, or the
  empty string on failure.
- **Dispatcher** (`Handler`, `lambda_handler`): checks the token, routes on
  non-empty `text`, removes newlines from the result and builds the response
  envelope.

The text helpers in `Lines` follow the Python operations the code uses:
`str.split('\n')`, `join`, the `if x` filter, the `[-30:]` slice,
`readline()`, `str.strip()` (with Python's whitespace set) and
`str.replace('\n', '')`.

I/O is abstracted. The S3 object is a `Store` whose content is `None` while
the key does not exist. The failure of each store call of a request is a
flag in `Faults`. The model call and `json.loads` are the oracles
`env.invoke` and `env.parse`. Every store or model call a step makes is
recorded, in order, as an `Effect` in the step's trace. This is how the
ordering properties are stated: the write comes last, and nothing is
called on a bad token.

The model follows the code as written, also at these points:

- `respond` reads `err.message` (line 40), and Python 3 exceptions have no
  such attribute. So every error path raises out of the handler, the
  token-mismatch path included (it raises again inside the handler's
  `except`). No status-400 envelope is ever returned. `Reply.Raised` models
  this, and `Handler.StatusCode` models the status choice on its own.
- `user_name` is indexed without a check (line 110). A request with
  non-empty `text` but no `user_name` therefore raises before the evaluator
  is called (`Route.Malformed`).
- The latest-record read strips the line. So a record read back after it was
  prepended equals the record only when the record has no surrounding
  whitespace (`History.LatestAfterPrependExact`). Otherwise the read returns
  the record stripped (`History.LatestAfterPrepend`).
- Records are prepended, but the context read keeps the *last* 30 lines. On
  a history that started empty, the context is therefore the 30 *oldest*
  records (`History.RecentAreOldest`). Once the object holds 30 non-empty
  lines, the context never changes again (`History.RecentFrozenOnceFull`).
- The append fetches the object before writing it (line 32), and a missing
  key makes that fetch raise. So when the history object does not exist, no
  joke is ever stored and every request returns the empty joke
  (`Generator.MissingHistoryNeverCreated`). The history has to exist, empty
  or not, before anything is recorded.

## Model

| member | source | states |
|---|---|---|
| `Lines.Split` | slack-chatbot-lambda.py:22 | a text with n newlines splits into n + 1 pieces, and no piece contains a newline |
| `Lines.JoinSplit` | slack-chatbot-lambda.py:22 | joining the split pieces with newlines gives back the text, so the split loses nothing |
| `Lines.SplitAround` | slack-chatbot-lambda.py:22 | the split of `a + "\n" + b` is the split of `a` followed by the split of `b` |
| `Lines.SplitSingle` | slack-chatbot-lambda.py:22 | a text without newlines splits into itself alone |
| `Lines.Join` | slack-chatbot-lambda.py:47 | `sep.join` of no pieces is empty and of one piece is that piece; with separator-free pieces it holds `|lines| - 1` separators; `JoinAppend` pins every longer join, and `JoinSplit` and `SplitJoin` are its inverse with the newline |
| `Lines.JoinAppend` | slack-chatbot-lambda.py:47 | for any separator, even one the pieces contain (a space between jokes), joining two non-empty runs of pieces is the two joins with exactly one separator between them |
| `Lines.SplitJoin` | slack-chatbot-lambda.py:22 | newline-free pieces joined by newlines split back into the same pieces |
| `Lines.NonEmpty` | slack-chatbot-lambda.py:24 | the filter keeps exactly the non-empty entries (membership both ways), all non-empty, never more than the input |
| `Lines.NonEmptyAppend` | slack-chatbot-lambda.py:24 | the filter distributes over concatenation, so kept entries stay in their order |
| `Lines.NonEmptyKeepsAll` | slack-chatbot-lambda.py:24 | entries that are all non-empty pass the filter unchanged |
| `Lines.TakeLast` | slack-chatbot-lambda.py:24 | the `[-n:]` slice has min(length, n) entries, and they are the final ones, in order |
| `Lines.TakeLastOfLongTail` | slack-chatbot-lambda.py:24 | entries in front of at least n others never reach the final n |
| `Lines.TakeLastOfReverse` | slack-chatbot-lambda.py:24 | the final n entries of a reversed list are its first n entries, reversed |
| `Lines.ReadLine` | slack-chatbot-lambda.py:75 | `readline()` yields a prefix of the text that ends at the first newline and includes it, or the whole text when there is no newline |
| `Lines.ReadLineIsFirstPiece` | slack-chatbot-lambda.py:75 | the line `readline()` yields is the first split piece, with or without its newline |
| `Lines.TrimStart` | slack-chatbot-lambda.py:75 | leading whitespace removal keeps the longest suffix not starting with whitespace, and everything removed is whitespace |
| `Lines.TrimEnd` | slack-chatbot-lambda.py:75 | trailing whitespace removal keeps the longest prefix not ending with whitespace, and everything removed is whitespace |
| `Lines.Strip` | slack-chatbot-lambda.py:75 | a stripped text is no longer than the input and has no whitespace at either end |
| `Lines.StripIsInnerRun` | slack-chatbot-lambda.py:75 | the stripped text is one contiguous run of the input with only whitespace before and after it |
| `Lines.StripAddsNothing` | slack-chatbot-lambda.py:75 | stripping introduces no character, a newline in particular, that the input lacks |
| `Lines.StripIgnoresTrailingSpace` | slack-chatbot-lambda.py:75 | a trailing whitespace character, such as the line's newline, does not change the stripped line |
| `Lines.StripKeepsTrimmed` | slack-chatbot-lambda.py:75 | a text without whitespace at its ends is its own strip |
| `Lines.RemoveNewlines` | slack-chatbot-lambda.py:114 | the result has no newline, is shorter by the number of newlines, and keeps every other character with its multiplicity |
| `Lines.RemoveNewlinesAppend` | slack-chatbot-lambda.py:114 | newline removal works piecewise, so the other characters keep their order |
| `Lines.RemoveNewlinesKeepsLine` | slack-chatbot-lambda.py:114 | a text without newlines is left unchanged |
| `History.Prepend` | slack-chatbot-lambda.py:34 | the new text is the record, one newline, then the previous text unchanged as a suffix, and nothing else |
| `History.RecentJokes` | slack-chatbot-lambda.py:22-24 | the context read has min(N, 30) entries for N non-empty lines, each a non-empty, newline-free line, and they are the final ones in text order |
| `History.LatestRecord` | slack-chatbot-lambda.py:75 | the latest-record read has no whitespace at its ends and is no longer than the text |
| `History.LatestIsFirstLine` | slack-chatbot-lambda.py:75 | the latest-record read is the stripped first split piece, so it contains no newline |
| `History.NonEmptyLinesOfPrepend` | slack-chatbot-lambda.py:34 | after a prepend, the non-empty lines are the record's followed by the old text's |
| `History.LatestAfterPrepend` | slack-chatbot-lambda.py:75 | round trip: after a newline-free record is prepended (line 34), the latest-record read returns the record stripped |
| `History.LatestAfterPrependExact` | slack-chatbot-lambda.py:75 | a newline-free record without surrounding whitespace is read back exactly |
| `History.LatestAfterMultilinePrepend` | slack-chatbot-lambda.py:75 | a record containing a newline is cut: the read returns only its stripped first line, and that read differs from the record |
| `History.RecentAfterPrepend` | slack-chatbot-lambda.py:24 | after one prepend, the context read is the final 30 of the record's lines followed by the old lines |
| `History.LinesOfHistory` | slack-chatbot-lambda.py:34 | after newline-free records are prepended one by one, the lines are those records newest first, then the base text's lines |
| `History.RecentAreOldest` | slack-chatbot-lambda.py:24 | from a history with no non-empty line, the context read returns the OLDEST min(n, 30) generated records, newest of them first |
| `History.NewestNotInContext` | slack-chatbot-lambda.py:24 | with more than 30 records, the newest record is missing from the context (unless an older record has the same text) |
| `History.RecentFrozenOnceFull` | slack-chatbot-lambda.py:24 | once the text holds 30 non-empty lines, the context read stays the same whatever is prepended later |
| `History.Fetch` | slack-chatbot-lambda.py:20-21 | a fetch succeeds exactly when the call does not fail and the object exists, and then yields the stored text |
| `History.ReadRecent` | slack-chatbot-lambda.py:18-28 | a failed fetch yields no context instead of raising; otherwise the context read of the stored text, at most 30 non-empty entries |
| `History.ReadLatest` | slack-chatbot-lambda.py:74-75 | the newest-record read fails exactly when the fetch fails, and otherwise returns the latest-record read of the stored text |
| `History.AppendRecord` | slack-chatbot-lambda.py:31-35 | the append succeeds exactly when the object exists and neither call fails; then the stored text becomes the prepend of the record to the old text (record, newline, old text) |
| `Generator.JokePrompt` | slack-chatbot-lambda.py:46-47 | the model is asked to avoid the recent jokes joined by single spaces, and an empty list when the history cannot be read |
| `Generator.JokeField` | slack-chatbot-lambda.py:64 | `parsed_joke['joke']` yields a value exactly when the decode succeeded and gave an object holding `joke`, and then that field's value; anything else raises |
| `Generator.GenerateJoke` | slack-chatbot-lambda.py:44-70 | the exact calls per outcome: one read and one model call with the recent jokes as context; then, only if the reply decoded with a `joke` field, the append's read and, if it succeeded, one write, attempted last; success returns the `joke` field and prepends the raw reply; any failure returns `''` with the store unchanged |
| `Generator.MissingHistoryNeverCreated` | slack-chatbot-lambda.py:31-35 | while the history object does not exist, the generator returns no joke, writes nothing and leaves the object missing, whatever the model answers |
| `Evaluator.EvaluateGuess` | slack-chatbot-lambda.py:72-97 | the evaluator never writes and never asks for a joke; a failed read returns `''` without calling the model; otherwise the model grades the guess against the newest record, and a failed call returns `''` |
| `Evaluator.GradesNewestJoke` | slack-chatbot-lambda.py:74-75 | after the generator stores a one-line reply, the next guess is graded against exactly that reply, stripped |
| `Handler.StatusCode` | slack-chatbot-lambda.py:39 | the status is `'200'` exactly when no error is passed, and `'400'` exactly when one is |
| `Handler.Respond` | slack-chatbot-lambda.py:37-42 | only the error-free call returns an envelope: status `'200'`, the result as body, JSON content type; with an error it raises |
| `Handler.Dispatch` | slack-chatbot-lambda.py:105-112 | a request is rejected exactly on a token mismatch; with a matching token it goes to the evaluator exactly when `text` is present and non-empty (and `user_name` present), to the generator exactly when `text` is absent or empty |
| `Handler.HandleRequest` | slack-chatbot-lambda.py:99-119 | a bad token, a missing field or an undecodable body makes no call and changes nothing; the evaluator route never writes or asks for a joke; the generator route never grades; every returned envelope has status `'200'` and a body without newlines, the result with its newlines removed |
| `Handler.WrongTokenCallsNothing` | slack-chatbot-lambda.py:105-107 | a token mismatch short-circuits: no store or model call, the store unchanged, and the invocation raises |
| `Handler.NonTextJokeStoredThenRaises` | slack-chatbot-lambda.py:114 | a decoded `joke` that is not text is still stored, and then the invocation raises |
| `Handler.RemoveNewlinesExample` | slack-chatbot-lambda.py:114 | `"a\nb"` becomes `"ab"` |
| `Handler.FirstJokeGenerated` | slack-chatbot-lambda.py:44-66 | on an existing empty history with no faults, the generator reads, asks the model once with an empty context, reads again and writes the reply plus a newline, in that order; it returns the decoded joke and the reply is the only stored line |
| `Handler.FirstJokeEndToEnd` | slack-chatbot-lambda.py:109-115 | on an existing empty history object with a valid token and no text, the handler's effects are exactly read, ask with an empty context, read, write; the response carries the joke, and the history then holds exactly the one stored record |

## Left out

- The S3 client calls (lines 20, 32, 35, 74) are not modelled. The object is `Store.content`, and each call's failure is a flag in `Faults`; which exception is raised does not matter, because every one is handled alike.
- The Bedrock client and its request body (lines 50-59, 83-90) are not modelled. The model call up to the extracted text segment (lines 61-62, 92-93) is the oracle `env.invoke`, and that segment is assumed to be a string.
- `json.loads` of the reply (line 63) is the oracle `env.parse`. `json.dumps(...).encode('utf8')` of the response body (line 40) is recorded as `Body.JsonEncoded` without the encoding itself.
- Base64 decoding, `parse_qs` and the byte-to-text decoding of the parameters (lines 101-103) are library calls. The handler takes the decoded map, or `None` when decoding raises.
- The prompt texts (lines 56, 76-81) are free text. `Prompt` keeps only the values spliced into them.
- Logging, the token from the environment (line 10) and the module-level client set-up and constants (lines 8-16) are configuration. The expected token is a parameter.
- UTF-8 decoding and encoding of the object are not modelled; text is a sequence of characters. A decoding failure behaves like a failed fetch.
- The lost update between concurrent prepends is out of scope: each request runs alone against the store.
- `Lines.TakeLast`: for n = 0 it returns nothing, while Python's `xs[-0:]` returns the whole list; the code only uses n = 30.
- `Handler.Respond`: the status-400 body is not modelled, because as written building it raises.

=== FILE: collaborators.dfy ===
/**
  What the handler exchanges with the outside world, reduced to what its
  decisions depend on: the language-model service and the JSON decoder are
  oracles passed in, store calls may fail as the `Faults` say, and every
  call made is recorded in order as an `Effect`.
 */
module Collaborators {
  import opened Wrappers
  import opened History

  /** What the language model is asked; the wording is not modelled, only
      the values spliced into it. */
  datatype Prompt =
    | NewJoke(avoid: string)
    | GradeGuess(question: string, username: string, guess: string)

  /** A decoded JSON value, told apart only as far as the handler looks. */
  datatype Json =
    | JString(text: string)
    | JObject(fields: map<string, Json>)
    | JOther

  /** One call to the store or the model, in the order it is made; a put
      is recorded when it is attempted, whether or not it succeeds. */
  datatype Effect =
    | GetObject
    | InvokeModel(prompt: Prompt)
    | PutObject(body: string)

  /** Which store calls of one request raise. */
  datatype Faults = Faults(
    recentFetchFails: bool,
    appendFetchFails: bool,
    putFails: bool,
    latestFetchFails: bool)

  /** The oracles: `invoke` is the model call up to the extracted text
      segment (`None` when the call or its response envelope fails), and
      `parse` is `json.loads` (`None` when the text is not JSON). */
  datatype Env = Env(
    invoke: Prompt -> Option<string>,
    parse: string -> Option<Json>,
    faults: Faults)

  /** What one step returns, the store it leaves, and the calls it made. */
  datatype Run<T> = Run(value: T, store: Store, trace: seq<Effect>)

  /** Number of attempted writes in a trace. */
  function Writes(trace: seq<Effect>): nat
    decreases |trace|
  {
    if |trace| == 0 then 0
    else (if trace[0].PutObject? then 1 else 0) + Writes(trace[1..])
  }

  /** Whether the model was asked for a new joke. */
  predicate AsksForJoke(trace: seq<Effect>) {
    exists k :: 0 <= k < |trace| && trace[k].InvokeModel? && trace[k].prompt.NewJoke?
  }

  /** Whether the model was asked to grade a guess. */
  predicate AsksToGrade(trace: seq<Effect>) {
    exists k :: 0 <= k < |trace| && trace[k].InvokeModel? && trace[k].prompt.GradeGuess?
  }
}

=== FILE: evaluator.dfy ===
/**
  The answer evaluator: read the newest record, ask the model to grade the
  user's guess against it, and return the model's text. It never writes;
  every failure is swallowed and turned into the empty string.
 */
module Evaluator {
  import opened History
  import opened Collaborators
  import Lines
  import Generator

  /** `respond_to_joke`. */
  function EvaluateGuess(guess: string, username: string, st: Store, env: Env): (r: Run<string>)
    ensures r.store == st && Writes(r.trace) == 0 && !AsksForJoke(r.trace)
    // a failed read stops before the model is asked
    ensures ReadLatest(st, env.faults.latestFetchFails).None? ==> r.value == "" && r.trace == [GetObject]
    // otherwise the model grades the guess against the newest record, and its
    // text, or the empty string when the call fails, is the result
    ensures ReadLatest(st, env.faults.latestFetchFails).Some? ==>
      var prompt := GradeGuess(LatestRecord(st.content.value), username, guess);
      && r.trace == [GetObject, InvokeModel(prompt)]
      && (env.invoke(prompt).Some? ==> r.value == env.invoke(prompt).value)
      && (env.invoke(prompt).None? ==> r.value == "")
  {
    match ReadLatest(st, env.faults.latestFetchFails)
    case None =>
      assert [GetObject][1..] == [];
      Run("", st, [GetObject])
    case Some(question) =>
      var prompt := GradeGuess(question, username, guess);
      var calls := [GetObject, InvokeModel(prompt)];
      assert Writes(calls) == 0 && !AsksForJoke(calls) by {
        var tail: seq<Effect> := [InvokeModel(prompt)];
        assert tail[1..] == [];
        assert Writes(tail) == 0;
        assert calls[1..] == tail;
      }
      Run(env.invoke(prompt).GetOr(""), st, calls)
  }

  /** Across both handlers: once the generator has stored a single-line
      reply, the evaluator grades the next guess against exactly that reply,
      stripped. */
  lemma GradesNewestJoke(st: Store, env: Env, guess: string, username: string)
    requires Generator.Succeeds(st, env)
    requires '\n' !in Generator.ModelReply(st, env).value
    requires !env.faults.latestFetchFails
    ensures EvaluateGuess(guess, username, Generator.GenerateJoke(st, env).store, env).trace
         == [GetObject, InvokeModel(GradeGuess(Lines.Strip(Generator.ModelReply(st, env).value), username, guess))]
  {
    var reply := Generator.ModelReply(st, env).value;
    LatestAfterPrepend(reply, st.content.value);
  }
}

=== FILE: generator.dfy ===
/**
  The joke generator: read recent jokes as context, ask the model for a new
  one as a JSON text, decode it, look up its `joke` field, store the raw
  text in front of the history, and return the joke. Every failure is
  swallowed and turned into the empty string.
 */
module Generator {
  import opened Wrappers
  import opened Lines
  import opened History
  import opened Collaborators

  /** The value returned when anything fails. */
  const NoJoke: Json := JString("")

  /** The prompt asks for a joke unlike the recent ones, joined by single
      spaces; with no readable history the list is empty. */
  function JokePrompt(st: Store, env: Env): (p: Prompt)
    ensures p.NewJoke?
    ensures env.faults.recentFetchFails || st.content.None? ==> p.avoid == ""
    ensures !env.faults.recentFetchFails && st.content.Some? ==>
      p.avoid == Join(RecentJokes(st.content.value), ' ')
  {
    NewJoke(Join(ReadRecent(st, env.faults.recentFetchFails), ' '))
  }

  /** `parsed['joke']`: only a decoded object holding that key has one; a
      failed decode, a non-object or a missing key raises (`None`). */
  function JokeField(parsed: Option<Json>): (joke: Option<Json>)
    ensures joke.Some? <==>
      parsed.Some? && parsed.value.JObject? && "joke" in parsed.value.fields
    ensures joke.Some? ==> joke.value == parsed.value.fields["joke"]
  {
    if parsed.Some? && parsed.value.JObject? && "joke" in parsed.value.fields
    then Some(parsed.value.fields["joke"])
    else None
  }

  /** The model's reply text to the joke prompt. */
  function ModelReply(st: Store, env: Env): Option<string> {
    env.invoke(JokePrompt(st, env))
  }

  /** The reply decodes to an object with a `joke` field. */
  predicate Decodes(st: Store, env: Env) {
    ModelReply(st, env).Some? && JokeField(env.parse(ModelReply(st, env).value)).Some?
  }

  /** Every step succeeds: the reply decodes, and both the fetch and the
      write of the append go through. */
  predicate Succeeds(st: Store, env: Env) {
    && Decodes(st, env)
    && st.content.Some?
    && !env.faults.appendFetchFails
    && !env.faults.putFails
  }

  /** `get_a_joke`. */
  function GenerateJoke(st: Store, env: Env): (r: Run<Json>)
    // the model is asked once, after one read, with the recent jokes as context;
    // the calls that follow depend on how far the request gets
    ensures !Decodes(st, env) ==>
      r.trace == [GetObject, InvokeModel(JokePrompt(st, env))]
    ensures Decodes(st, env) && (st.content.None? || env.faults.appendFetchFails) ==>
      r.trace == [GetObject, InvokeModel(JokePrompt(st, env)), GetObject]
    ensures Decodes(st, env) && st.content.Some? && !env.faults.appendFetchFails ==>
      r.trace == [GetObject, InvokeModel(JokePrompt(st, env)), GetObject,
                  PutObject(Prepend(ModelReply(st, env).value, st.content.value))]
    ensures !AsksToGrade(r.trace)
    // at most one write, attempted last and only once the reply decoded with a joke
    ensures Writes(r.trace) <= 1
    ensures Writes(r.trace) == 1 <==>
      Decodes(st, env) && st.content.Some? && !env.faults.appendFetchFails
    ensures Writes(r.trace) == 1 ==>
      && Decodes(st, env)
      && st.content.Some?
      && r.trace[|r.trace| - 1] == PutObject(Prepend(ModelReply(st, env).value, st.content.value))
    // success returns the joke field and prepends the raw reply text
    ensures Succeeds(st, env) ==>
      && r.value == env.parse(ModelReply(st, env).value).value.fields["joke"]
      && r.store == Store(Some(Prepend(ModelReply(st, env).value, st.content.value)))
    // any failure returns the empty string and leaves the store alone
    ensures !Succeeds(st, env) ==> r.value == NoJoke && r.store == st
  {
    var prompt := JokePrompt(st, env);
    var asked := [GetObject, InvokeModel(prompt)];
    match env.invoke(prompt)
    case None =>
      JokeTraces(prompt, "");
      Run(NoJoke, st, asked)
    case Some(reply) =>
      match JokeField(env.parse(reply))
      case None =>
        JokeTraces(prompt, "");
        Run(NoJoke, st, asked)
      case Some(joke) =>
        // the append: one fetch, then the put of the new text
        match Fetch(st, env.faults.appendFetchFails)
        case None =>
          JokeTraces(prompt, "");
          Run(NoJoke, st, asked + [GetObject])
        case Some(text) =>
          var calls := asked + [GetObject, PutObject(Prepend(reply, text))];
          JokeTraces(prompt, Prepend(reply, text));
          match AppendRecord(st, reply, env.faults.appendFetchFails, env.faults.putFails)
          case None => Run(NoJoke, st, calls)
          case Some(updated) => Run(joke, updated, calls)
  }

  /** The append only reads an object that exists, so while there is none the
      generator never creates it: every request returns no joke and writes
      nothing, whatever the model answers. */
  lemma MissingHistoryNeverCreated(env: Env)
    ensures var r := GenerateJoke(Store(None), env);
      r.value == NoJoke && r.store == Store(None) && Writes(r.trace) == 0
  {
  }

  /** Write counts and prompt kinds of the three call sequences the generator
      can make. */
  lemma JokeTraces(prompt: Prompt, body: string)
    requires prompt.NewJoke?
    ensures var asked := [GetObject, InvokeModel(prompt)];
      && Writes(asked) == 0 && !AsksToGrade(asked)
      && Writes(asked + [GetObject]) == 0 && !AsksToGrade(asked + [GetObject])
      && var full := asked + [GetObject, PutObject(body)];
         Writes(full) == 1 && !AsksToGrade(full) && full[|full| - 1] == PutObject(body)
  {
    var asked := [GetObject, InvokeModel(prompt)];
    var tail: seq<Effect> := [InvokeModel(prompt)];
    assert tail[1..] == [];
    assert Writes(tail) == 0;
    assert asked[1..] == tail;
    assert Writes(asked) == 0;
    WritesAppend(asked, [GetObject]);
    var put := [GetObject, PutObject(body)];
    var last: seq<Effect> := [PutObject(body)];
    assert last[1..] == [];
    assert Writes(last) == 1;
    assert put[1..] == last;
    WritesAppend(asked, put);
  }

  lemma {:induction false} WritesAppend(a: seq<Effect>, b: seq<Effect>)
    ensures Writes(a + b) == Writes(a) + Writes(b)
    decreases |a|
  {
    if |a| == 0 {
      assert a + b == b;
    } else {
      assert (a + b)[1..] == a[1..] + b;
      WritesAppend(a[1..], b);
    }
  }
}

=== FILE: handler.dfy ===
/**
  The webhook entry point: authenticate the request's token, route to the
  evaluator when the request carries text and to the generator otherwise,
  drop newlines from the result, and wrap it in the response envelope.

  As written, building an error envelope reads an attribute that Python 3
  exceptions do not have, so every error path raises out of the handler
  instead of returning a status-400 envelope; `Raised` models that.
 */
module Handler {
  import opened Wrappers
  import opened Lines
  import opened History
  import opened Collaborators
  import opened Generator
  import opened Evaluator

  const ContentType: string := "application/json"

  /** The response body: the result text, JSON-encoded (the encoding itself
      is not modelled). */
  datatype Body = JsonEncoded(text: string)

  /** What an invocation ends with: an envelope, or an exception that
      escapes the handler. */
  datatype Reply =
    | Envelope(statusCode: string, body: Body, contentType: string)
    | Raised

  /** Where a request goes once its parameters are decoded. */
  datatype Route =
    | Malformed                                   // a field the code indexes is missing
    | Rejected                                    // the token does not match
    | ToEvaluator(text: string, username: string)
    | ToGenerator

  /** The status code chosen for an error, or for its absence. */
  function StatusCode(err: Option<string>): (code: string)
    ensures code == "200" <==> err.None?
    ensures code == "400" <==> err.Some?
  {
    if err.Some? then "400" else "200"
  }

  /** `respond(err, res)`: the status is picked first, then reading the
      error's message raises, so only the error-free call returns. */
  function Respond(err: Option<string>, result: string): (reply: Reply)
    ensures reply.Envelope? <==> err.None?
    ensures reply.Envelope? ==>
      reply.statusCode == "200" && reply.body.text == result && reply.contentType == ContentType
  {
    var code := StatusCode(err);
    if err.Some? then Raised else Envelope(code, JsonEncoded(result), ContentType)
  }

  /** The routing decision on the decoded parameters. */
  function Dispatch(params: map<string, string>, expected: string): (route: Route)
    ensures route == Rejected <==> "token" in params && params["token"] != expected
    ensures route.ToEvaluator? <==>
      && "token" in params && params["token"] == expected
      && "text" in params && params["text"] != ""
      && "user_name" in params
    ensures route.ToEvaluator? ==>
      route.text == params["text"] && route.username == params["user_name"]
    ensures route == ToGenerator <==>
      && "token" in params && params["token"] == expected
      && !("text" in params && params["text"] != "")
    ensures route == Malformed <==>
      || "token" !in params
      || (params["token"] == expected && "text" in params && params["text"] != ""
          && "user_name" !in params)
  {
    if "token" !in params then Malformed
    else if expected != params["token"] then Rejected
    else if "text" in params && params["text"] != "" then
      if "user_name" in params then ToEvaluator(params["text"], params["user_name"]) else Malformed
    else ToGenerator
  }

  /** `lambda_handler`, from the decoded parameters on (`None` when the body
      cannot be decoded); `expected` is the configured token. */
  function HandleRequest(request: Option<map<string, string>>, expected: string, st: Store, env: Env)
    : (r: Run<Reply>)
    // nothing is called and nothing changes unless the token matches and the fields are there
    ensures request.None? || Dispatch(request.value, expected) in {Malformed, Rejected} ==>
      r.value == Raised && r.trace == [] && r.store == st
    // the evaluator route never asks for a joke and never writes
    ensures request.Some? && Dispatch(request.value, expected).ToEvaluator? ==>
      var route := Dispatch(request.value, expected);
      var e := EvaluateGuess(route.text, route.username, st, env);
      && r.trace == e.trace && r.store == st
      && !AsksForJoke(r.trace) && Writes(r.trace) == 0
      && r.value.Envelope? && r.value.body.text == RemoveNewlines(e.value)
    // the generator route never grades, and replies only when the joke is text
    ensures request.Some? && Dispatch(request.value, expected) == ToGenerator ==>
      var g := GenerateJoke(st, env);
      && r.trace == g.trace && r.store == g.store
      && !AsksToGrade(r.trace)
      && (r.value.Envelope? <==> g.value.JString?)
      && (r.value.Envelope? ==> r.value.body.text == RemoveNewlines(g.value.text))
    // every envelope that comes back is a success without newlines
    ensures r.value.Envelope? ==> r.value.statusCode == "200" && '\n' !in r.value.body.text
  {
    match request
    case None => Run(Raised, st, [])
    case Some(params) =>
      match Dispatch(params, expected)
      case Malformed => Run(Raised, st, [])
      case Rejected => Run(Raised, st, [])
      case ToEvaluator(text, username) =>
        var e := EvaluateGuess(text, username, st, env);
        Run(Respond(None, RemoveNewlines(e.value)), e.store, e.trace)
      case ToGenerator =>
        var g := GenerateJoke(st, env);
        match g.value
        case JString(joke) => Run(Respond(None, RemoveNewlines(joke)), g.store, g.trace)
        case _ => Run(Raised, g.store, g.trace)
  }

  /** A wrong token short-circuits: no store or model call, no change, and
      the invocation raises. */
  lemma WrongTokenCallsNothing(params: map<string, string>, expected: string, st: Store, env: Env)
    requires "token" in params && params["token"] != expected
    ensures var r := HandleRequest(Some(params), expected, st, env);
      r.value == Raised && r.trace == [] && r.store == st
  {
  }

  /** A generator reply whose joke field is not text is still stored, but
      the invocation then raises. */
  lemma NonTextJokeStoredThenRaises(params: map<string, string>, expected: string, st: Store, env: Env)
    requires Dispatch(params, expected) == ToGenerator
    requires Succeeds(st, env)
    requires !env.parse(ModelReply(st, env).value).value.fields["joke"].JString?
    ensures var r := HandleRequest(Some(params), expected, st, env);
      r.value == Raised && r.store != st && Writes(r.trace) == 1
  {
    var g := GenerateJoke(st, env);
    var reply := ModelReply(st, env).value;
    assert g.store.content == Some(Prepend(reply, st.content.value));
    assert |Prepend(reply, st.content.value)| > |st.content.value|;
  }

  /** Newlines inside a result are dropped: "a\nb" becomes "ab". */
  lemma RemoveNewlinesExample()
    ensures RemoveNewlines("a\nb") == "ab"
  {
    RemoveNewlinesAppend("a", "\nb");
    RemoveNewlinesAppend("\n", "b");
    RemoveNewlinesKeepsLine("a");
    RemoveNewlinesKeepsLine("b");
  }

  /** The generator half of the end-to-end case: on an empty history the
      model is asked with an empty context, the joke comes back and the reply
      is stored as the only line. */
  lemma FirstJokeGenerated(st: Store, env: Env, record: string, joke: string, answer: Json)
    requires st == Store(Some(""))
    requires env.faults == Faults(false, false, false, false)
    requires record != "" && '\n' !in record
    requires env.invoke(NewJoke("")) == Some(record)
    requires env.parse(record) == Some(JObject(map["joke" := JString(joke), "answer" := answer]))
    ensures GenerateJoke(st, env).value == JString(joke)
    ensures GenerateJoke(st, env).store == Store(Some(record + "\n"))
    ensures GenerateJoke(st, env).trace
         == [GetObject, InvokeModel(NewJoke("")), GetObject, PutObject(record + "\n")]
    ensures NonEmptyLines(record + "\n") == [record]
  {
    assert JokePrompt(st, env) == NewJoke("") by {
      assert Split("") == [""];
      assert NonEmptyLines("") == [];
    }
    assert Succeeds(st, env);
    assert Prepend(record, "") == record + "\n";
    assert NonEmptyLines(record + "\n") == [record] by {
      NonEmptyLinesOfPrepend(record, "");
      SplitSingle(record);
      assert NonEmpty([record]) == [record];
    }
  }

  /** End to end on an empty history, for a one-line reply such as
      `{"joke":"Q","answer":"A"}`: the response carries the joke, and the
      history then holds exactly the stored record. */
  lemma FirstJokeEndToEnd(params: map<string, string>, st: Store, env: Env,
                          record: string, joke: string, answer: Json)
    requires params == map["token" := "secret"]
    requires st == Store(Some(""))
    requires env.faults == Faults(false, false, false, false)
    requires record != "" && '\n' !in record && '\n' !in joke
    requires env.invoke(NewJoke("")) == Some(record)
    requires env.parse(record) == Some(JObject(map["joke" := JString(joke), "answer" := answer]))
    ensures var r := HandleRequest(Some(params), "secret", st, env);
      && r.value == Envelope("200", JsonEncoded(joke), ContentType)
      && r.store == Store(Some(record + "\n"))
      && r.trace == [GetObject, InvokeModel(NewJoke("")), GetObject, PutObject(record + "\n")]
      && NonEmptyLines(r.store.content.value) == [record]
  {
    FirstJokeGenerated(st, env, record, joke, answer);
    assert Dispatch(params, "secret") == ToGenerator;
    RemoveNewlinesKeepsLine(joke);
  }
}

=== FILE: history.dfy ===
/**
  The joke history: one text object in the bucket, one serialized joke
  record per line, newest first because every new record is put in front.
  The pure operations on the text come first, then the three reads and
  writes the handler makes against the store.
 */
module History {
  import opened Wrappers
  import opened Lines

  /** How many records the generator reads back as context. */
  const RecentLimit: nat := 30

  /* ---------------------------------------------------------------------- */
  /* Operations on the stored text                                           */
  /* ---------------------------------------------------------------------- */

  /** The text after `record` is put in front of `blob`: the record, a
      newline, then the previous text untouched. */
  function Prepend(record: string, blob: string): (updated: string)
    ensures |updated| == |record| + 1 + |blob|
    ensures updated[..|record|] == record
    ensures updated[|record|] == '\n'
    ensures updated[|record| + 1..] == blob
  {
    record + "\n" + blob
  }

  /** The non-empty lines of the text, in text order. */
  function NonEmptyLines(blob: string): seq<string>
  {
    NonEmpty(Split(blob))
  }

  /** The generator's context read: the final `RecentLimit` non-empty lines
      of the text, in text order. */
  function RecentJokes(blob: string): (recent: seq<string>)
    ensures |recent| == Min(|NonEmptyLines(blob)|, RecentLimit)
    ensures |recent| <= RecentLimit
    ensures forall k :: 0 <= k < |recent| ==>
      recent[k] != "" && '\n' !in recent[k]
      && recent[k] == NonEmptyLines(blob)[|NonEmptyLines(blob)| - |recent| + k]
  {
    NonEmptyLinesArePieces(blob);
    TakeLast(NonEmptyLines(blob), RecentLimit)
  }

  /** Every kept line is a non-empty piece between newlines. */
  lemma NonEmptyLinesArePieces(blob: string)
    ensures forall k :: 0 <= k < |NonEmptyLines(blob)| ==>
      NonEmptyLines(blob)[k] != "" && '\n' !in NonEmptyLines(blob)[k]
  {
    var pieces := Split(blob);
    var lines := NonEmpty(pieces);
    forall k | 0 <= k < |lines| ensures lines[k] != "" && '\n' !in lines[k] {
      assert lines[k] in pieces;
    }
  }

  /** The evaluator's read: the first line of the text, stripped. */
  function LatestRecord(blob: string): (latest: string)
    ensures |latest| <= |blob|
    ensures |latest| > 0 ==> !IsSpace(latest[0]) && !IsSpace(latest[|latest| - 1])
  {
    Strip(ReadLine(blob))
  }

  /** The latest record is the stripped first piece of the split text, the
      same line the context read sees first. */
  lemma LatestIsFirstLine(blob: string)
    ensures LatestRecord(blob) == Strip(Split(blob)[0])
    ensures '\n' !in LatestRecord(blob)
  {
    ReadLineIsFirstPiece(blob);
    if ReadLine(blob) != Split(blob)[0] {
      StripIgnoresTrailingSpace(Split(blob)[0], '\n');
    }
    StripAddsNothing(Split(blob)[0], '\n');
  }

  /** Prepending a record puts its lines in front of the old ones. */
  lemma NonEmptyLinesOfPrepend(record: string, blob: string)
    ensures NonEmptyLines(Prepend(record, blob)) == NonEmptyLines(record) + NonEmptyLines(blob)
  {
    SplitAround(record, blob);
    NonEmptyAppend(Split(record), Split(blob));
  }

  /** Round trip: after a single-line record is prepended, the latest-record
      read yields that record, stripped. */
  lemma LatestAfterPrepend(record: string, blob: string)
    requires '\n' !in record
    ensures LatestRecord(Prepend(record, blob)) == Strip(record)
  {
    SplitAround(record, blob);
    SplitSingle(record);
    LatestIsFirstLine(Prepend(record, blob));
  }

  /** A record without surrounding whitespace comes back exactly. */
  lemma LatestAfterPrependExact(record: string, blob: string)
    requires '\n' !in record
    requires |record| > 0 ==> !IsSpace(record[0]) && !IsSpace(record[|record| - 1])
    ensures LatestRecord(Prepend(record, blob)) == record
  {
    LatestAfterPrepend(record, blob);
    StripKeepsTrimmed(record);
  }

  /** A record spanning several lines is cut: the latest-record read sees only
      its first line, and the rest becomes separate history lines. */
  lemma LatestAfterMultilinePrepend(record: string, blob: string)
    requires '\n' in record
    ensures LatestRecord(Prepend(record, blob)) == Strip(Split(record)[0])
    ensures Split(record)[0] != record
    ensures LatestRecord(Prepend(record, blob)) != record
  {
    SplitAround(record, blob);
    LatestIsFirstLine(Prepend(record, blob));
    assert '\n' !in Split(record)[0];
  }

  /** One prepend: the context read gains the record's non-empty lines in
      front and keeps only the final `RecentLimit` of all lines. */
  lemma RecentAfterPrepend(record: string, blob: string)
    ensures RecentJokes(Prepend(record, blob))
         == TakeLast(NonEmptyLines(record) + NonEmptyLines(blob), RecentLimit)
  {
    NonEmptyLinesOfPrepend(record, blob);
  }

  /** The text after `records` are prepended one by one onto `base`,
      `records[0]` first (so the last of them ends up on top). */
  function PrependAll(records: seq<string>, base: string): string
    decreases |records|
  {
    if |records| == 0 then base
    else Prepend(records[|records| - 1], PrependAll(records[..|records| - 1], base))
  }

  /** Single-line records stack up newest first above the base text. */
  lemma {:induction false} LinesOfHistory(records: seq<string>, base: string)
    requires forall k :: 0 <= k < |records| ==> '\n' !in records[k]
    ensures Split(PrependAll(records, base)) == Reverse(records) + Split(base)
    decreases |records|
  {
    if |records| > 0 {
      var last, init := records[|records| - 1], records[..|records| - 1];
      var older := PrependAll(init, base);
      calc {
        Split(PrependAll(records, base));
        Split(last + "\n" + older);
        { SplitAround(last, older); }
        Split(last) + Split(older);
        { SplitSingle(last); LinesOfHistory(init, base); }
        [last] + (Reverse(init) + Split(base));
        ([last] + Reverse(init)) + Split(base);
        { ReverseLastFirst(records); }
        Reverse(records) + Split(base);
      }
    }
  }

  /** Starting from a text with no non-empty line, the context read after
      any number of generated records returns the OLDEST `RecentLimit` of
      them, newest of those first: records are prepended but the read keeps
      the final lines. */
  lemma RecentAreOldest(records: seq<string>, base: string)
    requires forall k :: 0 <= k < |records| ==> records[k] != "" && '\n' !in records[k]
    requires NonEmptyLines(base) == []
    ensures RecentJokes(PrependAll(records, base))
         == Reverse(records[..Min(|records|, RecentLimit)])
  {
    LinesOfHistory(records, base);
    NonEmptyAppend(Reverse(records), Split(base));
    NonEmptyKeepsAll(Reverse(records));
    assert NonEmptyLines(PrependAll(records, base)) == Reverse(records);
    TakeLastOfReverse(records, RecentLimit);
  }

  /** Hence once more than `RecentLimit` records exist, the newest one is not
      in the context (unless an older one has the same text). */
  lemma NewestNotInContext(records: seq<string>, base: string)
    requires forall k :: 0 <= k < |records| ==> records[k] != "" && '\n' !in records[k]
    requires NonEmptyLines(base) == []
    requires |records| > RecentLimit
    requires records[|records| - 1] !in records[..RecentLimit]
    ensures records[|records| - 1] !in RecentJokes(PrependAll(records, base))
  {
    RecentAreOldest(records, base);
    var oldest := records[..RecentLimit];
    forall k | 0 <= k < |oldest| ensures Reverse(oldest)[k] != records[|records| - 1] {
      assert Reverse(oldest)[k] == oldest[|oldest| - 1 - k];
    }
  }

  /** Once the text holds `RecentLimit` non-empty lines, the context read
      never changes again, whatever is prepended. */
  lemma {:induction false} RecentFrozenOnceFull(records: seq<string>, base: string)
    requires |NonEmptyLines(base)| >= RecentLimit
    ensures RecentJokes(PrependAll(records, base)) == RecentJokes(base)
    ensures |NonEmptyLines(PrependAll(records, base))| >= RecentLimit
    decreases |records|
  {
    if |records| > 0 {
      var n := |records|;
      var below := PrependAll(records[..n - 1], base);
      RecentFrozenOnceFull(records[..n - 1], base);
      NonEmptyLinesOfPrepend(records[n - 1], below);
      TakeLastOfLongTail(NonEmptyLines(records[n - 1]), NonEmptyLines(below), RecentLimit);
    }
  }

  /* ---------------------------------------------------------------------- */
  /* The store                                                               */
  /* ---------------------------------------------------------------------- */

  /** The history object in the bucket; `None` while the key does not exist
      (a read of a missing key raises). */
  datatype Store = Store(content: Option<string>)

  /** One `get_object` on the history key: the text, or `None` when the
      object is missing or the call fails. */
  function Fetch(st: Store, fails: bool): (text: Option<string>)
    ensures text.Some? <==> !fails && st.content.Some?
    ensures text.Some? ==> text.value == st.content.value
  {
    if fails then None else st.content
  }

  /** The generator's context read: recent records, or none at all when the
      fetch fails; the failure is swallowed, never raised. */
  function ReadRecent(st: Store, fetchFails: bool): (recent: seq<string>)
    ensures fetchFails || st.content.None? ==> recent == []
    ensures !fetchFails && st.content.Some? ==> recent == RecentJokes(st.content.value)
    ensures |recent| <= RecentLimit
    ensures forall k :: 0 <= k < |recent| ==> recent[k] != ""
  {
    match Fetch(st, fetchFails)
    case None => []
    case Some(text) => RecentJokes(text)
  }

  /** The evaluator's read of the newest record; a failed fetch is raised
      (`None`). */
  function ReadLatest(st: Store, fetchFails: bool): (latest: Option<string>)
    ensures latest.Some? <==> !fetchFails && st.content.Some?
    ensures latest.Some? ==> latest.value == LatestRecord(st.content.value)
  {
    match Fetch(st, fetchFails)
    case None => None
    case Some(text) => Some(LatestRecord(text))
  }

  /** Puts `record` in front of the stored text: fetch, then write back.
      `None` means one of the two calls raised, in which case nothing was
      written. */
  function AppendRecord(st: Store, record: string, fetchFails: bool, putFails: bool)
    : (updated: Option<Store>)
    ensures updated.Some? <==> st.content.Some? && !fetchFails && !putFails
    ensures updated.Some? ==> updated.value.content == Some(Prepend(record, st.content.value))
  {
    match Fetch(st, fetchFails)
    case None => None
    case Some(text) =>
      if putFails then None else Some(Store(Some(Prepend(record, text))))
  }
}

=== FILE: lines.dfy ===
/**
  Text helpers of the webhook, with the semantics of the Python string and
  list operations the handler uses: `str.split('\n')`, `sep.join`, a
  non-empty filter, the `[-n:]` slice, `readline()`, `str.strip()` and
  `str.replace('\n', '')`.
 */
module Lines {

  /* ---------------------------------------------------------------------- */
  /* Splitting and joining on a separator                                    */
  /* ---------------------------------------------------------------------- */

  /** Number of occurrences of `c` in `s`. */
  function Count(s: string, c: char): nat
    decreases |s|
  {
    if |s| == 0 then 0 else (if s[0] == c then 1 else 0) + Count(s[1..], c)
  }

  /** `s.split('\n')`: the pieces between newlines, so n newlines give n + 1
      pieces and the empty string gives one empty piece. */
  function Split(s: string): (lines: seq<string>)
    ensures |lines| == Count(s, '\n') + 1
    ensures forall k :: 0 <= k < |lines| ==> '\n' !in lines[k]
    decreases |s|
  {
    if |s| == 0 then [""]
    else
      var rest := Split(s[1..]);
      if s[0] == '\n' then [""] + rest
      else [[s[0]] + rest[0]] + rest[1..]
  }

  /** Counting distributes over concatenation. */
  lemma {:induction false} CountAppend(a: string, b: string, c: char)
    ensures Count(a + b, c) == Count(a, c) + Count(b, c)
    decreases |a|
  {
    if |a| == 0 {
      assert a + b == b;
    } else {
      assert (a + b)[0] == a[0];
      assert (a + b)[1..] == a[1..] + b;
      CountAppend(a[1..], b, c);
    }
  }

  /** `sep.join(lines)`: the pieces in order with one separator between
      neighbours, so when no piece holds the separator it occurs exactly
      `|lines| - 1` times. */
  function Join(lines: seq<string>, sep: char): (joined: string)
    ensures |lines| == 0 ==> joined == ""
    ensures |lines| == 1 ==> joined == lines[0]
    ensures |lines| > 0 ==> |lines[0]| <= |joined| && joined[..|lines[0]|] == lines[0]
    ensures |lines| > 0 && (forall k :: 0 <= k < |lines| ==> sep !in lines[k]) ==>
      Count(joined, sep) == |lines| - 1
    decreases |lines|
  {
    if |lines| == 0 then ""
    else if |lines| == 1 then
      CountAbsent(lines[0], sep);
      lines[0]
    else
      var rest := Join(lines[1..], sep);
      CountAbsent(lines[0], sep);
      CountAppend(lines[0] + [sep], rest, sep);
      CountAppend(lines[0], [sep], sep);
      assert Count([sep], sep) == 1 by {
        assert [sep][1..] == [];
      }
      assert forall k :: 0 <= k < |lines[1..]| ==> lines[1..][k] == lines[k + 1];
      assert (lines[0] + [sep] + rest)[..|lines[0]|] == lines[0];
      lines[0] + [sep] + rest
  }

  /** A character that does not occur is counted zero times. */
  lemma {:induction false} CountAbsent(s: string, c: char)
    ensures c !in s ==> Count(s, c) == 0
    decreases |s|
  {
    if |s| > 0 {
      assert c !in s ==> c !in s[1..] by {
        assert forall k :: 0 <= k < |s[1..]| ==> s[1..][k] == s[k + 1];
      }
      CountAbsent(s[1..], c);
    }
  }

  /** Joining two non-empty runs of pieces puts exactly one separator
      between them, whatever the pieces hold. */
  lemma {:induction false} JoinAppend(a: seq<string>, b: seq<string>, sep: char)
    requires |a| > 0 && |b| > 0
    ensures Join(a + b, sep) == Join(a, sep) + [sep] + Join(b, sep)
    decreases |a|
  {
    if |a| == 1 {
      assert (a + b)[1..] == b;
    } else {
      assert (a + b)[1..] == a[1..] + b;
      JoinAppend(a[1..], b, sep);
    }
  }

  lemma JoinConsChar(c: char, x: string, t: seq<string>, sep: char)
    ensures Join([[c] + x] + t, sep) == [c] + Join([x] + t, sep)
  {
    assert ([[c] + x] + t)[1..] == t;
    assert ([x] + t)[1..] == t;
  }

  /** Joining the pieces of a split with a newline gives back the text. */
  lemma {:induction false} JoinSplit(s: string)
    ensures Join(Split(s), '\n') == s
    decreases |s|
  {
    if |s| == 0 {
    } else {
      var rest := Split(s[1..]);
      JoinSplit(s[1..]);
      if s[0] == '\n' {
        assert Split(s) == [""] + rest;
        assert ([""] + rest)[1..] == rest;
        assert s == "\n" + s[1..];
      } else {
        assert Split(s) == [[s[0]] + rest[0]] + rest[1..];
        assert [rest[0]] + rest[1..] == rest;
        JoinConsChar(s[0], rest[0], rest[1..], '\n');
        assert s == [s[0]] + s[1..];
      }
    }
  }

  /** One step of the split: a leading newline opens a new piece, any
      other character joins the first piece of the rest. */
  lemma SplitCons(c: char, t: string)
    ensures c == '\n' ==> Split([c] + t) == [""] + Split(t)
    ensures c != '\n' ==> Split([c] + t) == [[c] + Split(t)[0]] + Split(t)[1..]
  {
    assert ([c] + t)[0] == c;
    assert ([c] + t)[1..] == t;
  }

  /** Putting a character in front of the first piece of `front + back`
      only touches `front`. */
  lemma ConsOntoFirst(c: char, front: seq<string>, back: seq<string>)
    requires |front| > 0
    ensures [[c] + (front + back)[0]] + (front + back)[1..]
         == ([[c] + front[0]] + front[1..]) + back
  {
    assert (front + back)[0] == front[0];
    assert (front + back)[1..] == front[1..] + back;
  }

  /** A newline splits a text into the pieces of either side. */
  lemma {:induction false} SplitAround(a: string, b: string)
    ensures Split(a + "\n" + b) == Split(a) + Split(b)
    decreases |a|
  {
    if |a| == 0 {
      assert a + "\n" + b == ['\n'] + b;
      SplitCons('\n', b);
    } else {
      var c, t := a[0], a[1..];
      assert a == [c] + t;
      assert a + "\n" + b == [c] + (t + "\n" + b);
      SplitAround(t, b);
      SplitCons(c, t + "\n" + b);
      SplitCons(c, t);
      if c != '\n' {
        ConsOntoFirst(c, Split(t), Split(b));
      }
    }
  }

  /** A text without newlines is one piece. */
  lemma {:induction false} SplitSingle(a: string)
    requires '\n' !in a
    ensures Split(a) == [a]
    decreases |a|
  {
    if |a| > 0 {
      assert '\n' !in a[1..] by {
        forall k | 0 <= k < |a[1..]| ensures a[1..][k] != '\n' {
          assert a[1..][k] == a[k + 1];
        }
      }
      SplitSingle(a[1..]);
      assert a == [a[0]] + a[1..];
    }
  }

  /** Splitting newline-free pieces joined by newlines recovers the pieces. */
  lemma {:induction false} SplitJoin(lines: seq<string>)
    requires |lines| > 0
    requires forall k :: 0 <= k < |lines| ==> '\n' !in lines[k]
    ensures Split(Join(lines, '\n')) == lines
    decreases |lines|
  {
    if |lines| == 1 {
      SplitSingle(lines[0]);
    } else {
      SplitAround(lines[0], Join(lines[1..], '\n'));
      SplitSingle(lines[0]);
      SplitJoin(lines[1..]);
      assert lines == [lines[0]] + lines[1..];
    }
  }

  /* ---------------------------------------------------------------------- */
  /* The non-empty filter and the final-n slice                              */
  /* ---------------------------------------------------------------------- */

  /** `[x for x in lines if x]`: the non-empty entries, in their order. */
  function NonEmpty(lines: seq<string>): (kept: seq<string>)
    ensures |kept| <= |lines|
    ensures forall k :: 0 <= k < |kept| ==> kept[k] != ""
    ensures forall x :: x in kept <==> x in lines && x != ""
    decreases |lines|
  {
    if |lines| == 0 then []
    else
      assert forall x :: x in lines <==> x == lines[0] || x in lines[1..];
      (if lines[0] == "" then [] else [lines[0]]) + NonEmpty(lines[1..])
  }

  /** The filter distributes over concatenation, so it keeps entries in order. */
  lemma {:induction false} NonEmptyAppend(a: seq<string>, b: seq<string>)
    ensures NonEmpty(a + b) == NonEmpty(a) + NonEmpty(b)
    decreases |a|
  {
    if |a| == 0 {
      assert a + b == b;
    } else {
      assert (a + b)[0] == a[0];
      assert (a + b)[1..] == a[1..] + b;
      NonEmptyAppend(a[1..], b);
    }
  }

  /** A sequence without empty entries passes the filter unchanged. */
  lemma {:induction false} NonEmptyKeepsAll(lines: seq<string>)
    requires forall k :: 0 <= k < |lines| ==> lines[k] != ""
    ensures NonEmpty(lines) == lines
    decreases |lines|
  {
    if |lines| > 0 {
      NonEmptyKeepsAll(lines[1..]);
      assert lines == [lines[0]] + lines[1..];
    }
  }

  /** The smaller of two integers. */
  function Min(a: int, b: int): int {
    if a <= b then a else b
  }

  /** `xs[-n:]` for `n >= 1`: the final `n` entries, or all of them when
      there are fewer. */
  function TakeLast<T>(xs: seq<T>, n: nat): (tail: seq<T>)
    ensures |tail| == Min(|xs|, n)
    ensures forall k :: 0 <= k < |tail| ==> tail[k] == xs[|xs| - |tail| + k]
  {
    if |xs| <= n then xs else xs[|xs| - n..]
  }

  /** Entries in front of at least `n` others never reach the final `n`. */
  lemma TakeLastOfLongTail<T>(a: seq<T>, b: seq<T>, n: nat)
    requires |b| >= n
    ensures TakeLast(a + b, n) == TakeLast(b, n)
  {
    var r, t := TakeLast(a + b, n), TakeLast(b, n);
    assert |r| == |t|;
    forall k | 0 <= k < |r| ensures r[k] == t[k] {
      assert (a + b)[|a + b| - |r| + k] == b[|b| - |t| + k];
    }
  }

  /** The first-to-last reversal. */
  function Reverse<T>(xs: seq<T>): (rev: seq<T>)
    ensures |rev| == |xs|
    ensures forall k :: 0 <= k < |xs| ==> rev[k] == xs[|xs| - 1 - k]
  {
    seq(|xs|, k requires 0 <= k < |xs| => xs[|xs| - 1 - k])
  }

  /** A reversal starts with the last entry, then reverses the rest. */
  lemma ReverseLastFirst<T>(xs: seq<T>)
    requires |xs| > 0
    ensures Reverse(xs) == [xs[|xs| - 1]] + Reverse(xs[..|xs| - 1])
  {
    var init := xs[..|xs| - 1];
    var l, r := Reverse(xs), [xs[|xs| - 1]] + Reverse(init);
    assert |l| == |r|;
    forall k | 0 <= k < |l| ensures l[k] == r[k] {
      if k > 0 {
        assert r[k] == Reverse(init)[k - 1] == init[|init| - k];
      }
    }
    assert l == r;
  }

  /** The final `n` entries of a reversal are the first `n` entries, reversed. */
  lemma TakeLastOfReverse<T>(xs: seq<T>, n: nat)
    ensures TakeLast(Reverse(xs), n) == Reverse(xs[..Min(|xs|, n)])
  {
    var m := Min(|xs|, n);
    var rx := Reverse(xs);
    var l := TakeLast(rx, n);
    var pre := xs[..m];
    var r := Reverse(pre);
    assert |l| == m == |r|;
    forall k | 0 <= k < m ensures l[k] == r[k] {
      assert l[k] == rx[|xs| - m + k];
      assert rx[|xs| - m + k] == xs[m - 1 - k];
      assert r[k] == pre[m - 1 - k];
    }
    assert l == r;
  }

  /* ---------------------------------------------------------------------- */
  /* readline() and strip()                                                  */
  /* ---------------------------------------------------------------------- */

  /** `readline()` on the stored text: everything up to and including the
      first newline, or the whole text when it has none. */
  function ReadLine(s: string): (line: string)
    ensures |line| <= |s| && line == s[..|line|]
    ensures '\n' in s ==> |line| > 0 && line[|line| - 1] == '\n'
    ensures forall k :: 0 <= k < |line| - 1 ==> line[k] != '\n'
    ensures '\n' !in s ==> line == s
    decreases |s|
  {
    if |s| == 0 then ""
    else if s[0] == '\n' then "\n"
    else
      assert '\n' in s[1..] <==> '\n' in s by {
        assert s == [s[0]] + s[1..];
      }
      [s[0]] + ReadLine(s[1..])
  }

  /** The line `readline()` yields is the first piece of `split('\n')`,
      with its terminating newline when there is one. */
  lemma {:induction false} ReadLineIsFirstPiece(s: string)
    ensures ReadLine(s) == Split(s)[0] || ReadLine(s) == Split(s)[0] + "\n"
    decreases |s|
  {
    if |s| > 0 && s[0] != '\n' {
      ReadLineIsFirstPiece(s[1..]);
    }
  }

  /** The characters Python's `str.isspace()` accepts, which `strip()` removes. */
  predicate IsSpace(c: char) {
    || ('\t' <= c <= '\r')
    || ('\U{1C}' <= c <= '\U{1F}')
    || c == ' '
    || c == '\U{85}'
    || c == '\U{A0}'
    || c == '\U{1680}'
    || ('\U{2000}' <= c <= '\U{200A}')
    || c == '\U{2028}'
    || c == '\U{2029}'
    || c == '\U{202F}'
    || c == '\U{205F}'
    || c == '\U{3000}'
  }

  /** Removes leading whitespace: the longest suffix not starting with it. */
  function TrimStart(s: string): (t: string)
    ensures |t| <= |s| && t == s[|s| - |t|..]
    ensures forall k :: 0 <= k < |s| - |t| ==> IsSpace(s[k])
    ensures |t| > 0 ==> !IsSpace(t[0])
    decreases |s|
  {
    if |s| > 0 && IsSpace(s[0]) then TrimStart(s[1..]) else s
  }

  /** Removes trailing whitespace: the longest prefix not ending with it. */
  function TrimEnd(s: string): (t: string)
    ensures |t| <= |s| && t == s[..|t|]
    ensures forall k :: |t| <= k < |s| ==> IsSpace(s[k])
    ensures |t| > 0 ==> !IsSpace(t[|t| - 1])
    decreases |s|
  {
    if |s| > 0 && IsSpace(s[|s| - 1]) then TrimEnd(s[..|s| - 1]) else s
  }

  /** `str.strip()`: whitespace removed from both ends. */
  function Strip(s: string): (t: string)
    ensures |t| <= |s|
    ensures |t| > 0 ==> !IsSpace(t[0]) && !IsSpace(t[|t| - 1])
  {
    TrimStart(TrimEnd(s))
  }

  /** Strip keeps one contiguous run of `s`, starting at `i`, with only
      whitespace on either side of it and none at its own ends. */
  lemma StripIsInnerRun(s: string) returns (i: nat)
    ensures i + |Strip(s)| <= |s| && s[i..i + |Strip(s)|] == Strip(s)
    ensures forall k :: 0 <= k < i ==> IsSpace(s[k])
    ensures forall k :: i + |Strip(s)| <= k < |s| ==> IsSpace(s[k])
    ensures |Strip(s)| > 0 ==> !IsSpace(Strip(s)[0]) && !IsSpace(Strip(s)[|Strip(s)| - 1])
  {
    var e := TrimEnd(s);
    var t := TrimStart(e);
    assert Strip(s) == t;
    i := |e| - |t|;
    assert e == s[..|e|];
    assert s[i..i + |t|] == t by {
      assert i + |t| == |e|;
      assert e[i..] == t;
    }
    forall k | 0 <= k < i ensures IsSpace(s[k]) {
      assert s[k] == e[k];
    }
  }

  /** Strip only removes characters, so it adds none. */
  lemma StripAddsNothing(s: string, c: char)
    requires c !in s
    ensures c !in Strip(s)
  {
    var i := StripIsInnerRun(s);
    var t := Strip(s);
    forall k | 0 <= k < |t| ensures t[k] != c {
      assert t[k] == s[i..i + |t|][k] == s[i + k];
    }
  }

  /** Trailing whitespace, a line's newline included, does not change the strip. */
  lemma StripIgnoresTrailingSpace(s: string, c: char)
    requires IsSpace(c)
    ensures Strip(s + [c]) == Strip(s)
  {
    assert (s + [c])[..|s|] == s;
  }

  /** A text with no whitespace at either end is its own strip. */
  lemma StripKeepsTrimmed(s: string)
    requires |s| > 0 ==> !IsSpace(s[0]) && !IsSpace(s[|s| - 1])
    ensures Strip(s) == s
  {
  }

  /* ---------------------------------------------------------------------- */
  /* replace('\n', '')                                                       */
  /* ---------------------------------------------------------------------- */

  /** `s.replace('\n', '')`: every newline dropped, the other characters kept. */
  function RemoveNewlines(s: string): (t: string)
    ensures '\n' !in t
    ensures |t| == |s| - Count(s, '\n')
    ensures forall c :: c != '\n' ==> multiset(t)[c] == multiset(s)[c]
    decreases |s|
  {
    if |s| == 0 then ""
    else
      assert s == [s[0]] + s[1..];
      assert multiset(s) == multiset{s[0]} + multiset(s[1..]);
      (if s[0] == '\n' then "" else [s[0]]) + RemoveNewlines(s[1..])
  }

  /** Newline removal works piecewise, so the kept characters stay in order. */
  lemma {:induction false} RemoveNewlinesAppend(a: string, b: string)
    ensures RemoveNewlines(a + b) == RemoveNewlines(a) + RemoveNewlines(b)
    decreases |a|
  {
    if |a| == 0 {
      assert a + b == b;
    } else {
      assert (a + b)[0] == a[0];
      assert (a + b)[1..] == a[1..] + b;
      RemoveNewlinesAppend(a[1..], b);
    }
  }

  /** A text without newlines is left as it is. */
  lemma {:induction false} RemoveNewlinesKeepsLine(s: string)
    requires '\n' !in s
    ensures RemoveNewlines(s) == s
    decreases |s|
  {
    if |s| > 0 {
      assert '\n' !in s[1..] by {
        forall k | 0 <= k < |s[1..]| ensures s[1..][k] != '\n' {
          assert s[1..][k] == s[k + 1];
        }
      }
      RemoveNewlinesKeepsLine(s[1..]);
      assert s == [s[0]] + s[1..];
    }
  }
}

=== FILE: wrappers.dfy ===
/** The option type shared by the modules of the joke webhook model. */
module Wrappers {

  /** `None` stands for a call that raised; `Some` carries the value it returned. */
  datatype Option<+T> = None | Some(value: T) {

    /** The value, or `default` when there is none. */
    function GetOr(default: T): T {
      match this
      case Some(v) => v
      case None => default
    }
  }
}
